=== FILE: README.md ===
# qemu-img wrapper of the disk-image import engine, in Dafny

This project models the decision logic of `pkg/image/qemu.go`. That file is the part of the
containerized data importer that converts, inspects, validates, resizes and zero-fills disk images
by driving `qemu-img` and `dd`. The subprocesses are not modelled. Each public operation is a pure
function of an environment of oracles (`Qemu.Env`). The function returns the invocations it would
hand to the resource-limited runner, whether it removed the destination, and its result.

Modules, one per concern of the source:

- `Results`: `Option` and `Result`.
- `Strings`: substring search, the role of `strings.Contains`. Also decimal rendering, the role of
  `strconv.FormatInt` and `%d`.
- `Process`: runner invocations, runner responses and the `qemu-img info` limits (1 GiB address
  space, 30 CPU seconds).
- `Errors`: one constructor per distinct error of the source. `LargerPVCRequired` is the
  capacity error that callers can tell apart from the other errors.
- `Preallocation`: the fallback chain `addPreallocation` and its method lists.
- `Validation`: `ImgInfo`, the format whitelist, `checkIfURLIsValid`, and the schemes each
  operation accepts.
- `CacheModes`: `getCacheMode`.
- `BlockFill`: how `PreallocateBlankBlock` splits a size into whole MiB blocks plus one
  remainder chunk, and the `dd` argument list.
- `Progress`: the `(NN.NN/100%)` matcher and the high-water-mark rule of `reportProgress`.
  Percentages are integer hundredths (0..9999).
- `Qemu`: the operations `ConvertToRawStream`, `Resize`, `Info`, `Validate`,
  `CreateBlankImage`, `Rebase`, `Commit` and `PreallocateBlankBlock`.

Two cleanup behaviours of the code are narrower than "remove the destination on any failure".
The model follows the code:

- `CreateBlankImage` removes the destination only when `qemu-img create` fails. A failed
  `chmod` is reported without removing the file (pkg/image/qemu.go:307-317).
- `convertToRaw` does not remove the destination when choosing the cache mode fails. It
  returns before the cleanup code (pkg/image/qemu.go:108-111).

One consequence of the progress pattern is proved: the pattern `\((\d?\d\.\d\d)\/100%\)` cannot match
qemu-img's `(100.00/100%)`. Through this reporter, the progress metric therefore never
reaches 100 (`Progress.HundredPercentNotMatched`).

## Model

| member | source | states |
|---|---|---|
| Preallocation.WithMethod | pkg/image/qemu.go:366-367 | each attempted argument list is the subcommand, then the method's flags, then the remaining arguments in their original order |
| Preallocation.TryMethods | pkg/image/qemu.go:359-379 | the chain meets `ChainSpec`: attempt k uses method k; every attempt but the last failed with the unsupported-mode signature; it stops early only on an attempt without that signature; it returns the last attempt's error, or nil for an empty list |
| Preallocation.ChainSpecDeterminesChain | pkg/image/qemu.go:359-379 | `ChainSpec` leaves no freedom: two chains that meet it are equal, so the specification fixes the call count, the call order and the result |
| Preallocation.StopsAtFirstNonRetriable | pkg/image/qemu.go:370-375 | if methods 0..j-1 are rejected as unsupported and method j is not, exactly j+1 calls happen, in list order; the result is method j's outcome (nil on success, the unrelated error otherwise) and no later method is tried |
| Preallocation.AllUnsupportedReturnsLast | pkg/image/qemu.go:361-378 | if every method is rejected as unsupported, all of them are tried and the last error is returned |
| Strings.ContainsIffOccurs | pkg/image/qemu.go:371 | the substring test used for the signature holds exactly when the signature occurs at some position of the output |
| Strings.NatToString | pkg/image/qemu.go:179 | the decimal rendering of a size is non-empty, digits only, and has no leading zero |
| Strings.ParseNatToString | pkg/image/qemu.go:331 | a rendered number reads back as the same number |
| Validation.IsSupportedFormat | pkg/image/qemu.go:235-242 | holds exactly for raw, qcow2, vmdk, vdi, vpc and vhdx |
| Validation.CheckImage | pkg/image/qemu.go:244-259 | checks the format first, then the backing file (only when one is named and it is missing), then capacity; it returns the capacity error exactly when the format and backing file pass and available < virtual size; it passes exactly when all three checks hold |
| Validation.CapacityBoundaryInclusive | pkg/image/qemu.go:255-258 | available == virtual size passes; one byte less gives the capacity error |
| Validation.InfoAdmitsConvertPlusFile | pkg/image/qemu.go:219-221 | introspection accepts every scheme that conversion accepts, plus `file` and no other |
| CacheModes.GetCacheMode | pkg/image/qemu.go:134-163 | any hint but try-none gives writeback; under try-none, a stat error other than not-exist is an error; the result is `none` exactly when the probe chosen for the stat outcome reports direct I/O; probe errors are passed on |
| CacheModes.OtherHintsSkipProbing | pkg/image/qemu.go:135-137 | for hints other than try-none, the result does not depend on stat or on either probe |
| CacheModes.ProbeSelection | pkg/image/qemu.go:143-152 | a block device is judged by the block-device probe alone; a missing or non-block destination is judged by the file probe alone |
| BlockFill.Chunks | pkg/image/qemu.go:348-356 | the first `dd` run is always (MiB, size/MiB, 0), even when the count is 0; a second run (size%MiB, 1, (size/MiB)*MiB) exists exactly when the remainder is non-zero |
| BlockFill.ChunksTileVolume | pkg/image/qemu.go:348-356 | the runs start at offset 0, are laid end to end, and write `size` bytes in total |
| BlockFill.EachByteWrittenOnce | pkg/image/qemu.go:348-356 | a byte offset is written by some run exactly when it is below `size`, and never by two runs |
| BlockFill.DdArgsRoundTrip | pkg/image/qemu.go:323-331 | the bs, count and seek fields of the `dd` arguments read back as the chunk's numbers; `,direct` is present exactly when direct I/O was chosen |
| Progress.MatchProgress | pkg/image/qemu.go:46 | a captured percentage is below 100.00 (at most 9999 hundredths) |
| Progress.MatchProgressIsLeftmost | pkg/image/qemu.go:281-282 | the matcher returns the value of the leftmost position where the pattern matches |
| Progress.NoMatchNoProgress | pkg/image/qemu.go:281-282 | a line without a match yields nothing |
| Progress.MatchRender | pkg/image/qemu.go:46 | qemu-img's `(%.2f/100%)` text for any percentage below 100 is read back exactly, after any text without an opening parenthesis |
| Progress.HundredPercentNotMatched | pkg/image/qemu.go:46 | `(100.00/100%)` does not match the pattern |
| Progress.ReportProgress | pkg/image/qemu.go:279-291 | without an owner or a match, nothing changes; otherwise the owner's value becomes the maximum of the old value and the parsed one; the published delta is exactly the rise; other owners are untouched |
| Progress.ReportAllHighWater | pkg/image/qemu.go:281-290 | after any sequence of lines, the owner's value equals the high-water mark of its start value and every percentage seen; it never decreases; only positive increments are published, and they sum to the rise; other owners' values are unchanged |
| Progress.NoOwnerNoPublication | pkg/image/qemu.go:282 | with no owner set, nothing is ever published and the metric is unchanged |
| Progress.FiveLineScenario | pkg/image/qemu.go:287-288 | any five lines carrying 10, 5, 20, 20, 30 produce exactly three publications of 10 each; the drop and the repeat publish nothing |
| Progress.MonotoneScenario | pkg/image/qemu.go:287-288 | the same holds for qemu-img's own `(%.2f/100%)` lines for those percentages |
| Qemu.RunQemu | pkg/image/qemu.go:114-121 | without preallocation one run with exactly the base arguments; with it, at most one run per method and run k uses method k; every run keeps the subcommand first and the base arguments after the inserted flags; the error is the last run's |
| Qemu.RunQemuMeetsChainSpec | pkg/image/qemu.go:359-379 | with preallocation every run but the last was rejected as unsupported, and a chain shorter than the method list stopped on a run that was not; the runs and the error meet `ChainSpec` and equal the chain `TryMethods` computes |
| Qemu.ConvertWithMode | pkg/image/qemu.go:112-131 | one unlimited, progress-streaming `qemu-img convert` call without preallocation and one to three with it, each ending in source and destination; the destination is removed exactly on failure; it fails exactly when the last run fails, with that run's error and the nbdkit log |
| Qemu.ConvertToRaw | pkg/image/qemu.go:107-132 | a cache-mode failure is returned as is, with no call and no removal; otherwise the conversion runs with the chosen mode; every call is an unlimited, progress-streaming `qemu-img convert` ending in source and destination; there is at most one call without preallocation and at most three with it; the destination is removed exactly on a conversion error; no call means the cache-mode choice failed; a conversion error carries the last run's error and the nbdkit log |
| Qemu.ConvertToRawStream | pkg/image/qemu.go:165-170 | any scheme other than empty or nbd+unix is refused with no invocation and no removal |
| Qemu.ConvertArgsExact | pkg/image/qemu.go:112 | without preallocation the single call is exactly `convert -t <mode> -p -O raw <src> <dest>` |
| Qemu.ConvertPreallocationChain | pkg/image/qemu.go:114-117 | with preallocation, call k is the progress-streaming, unlimited `qemu-img` run that inserts the k-th convert method after `convert`; every call but the last was rejected as unsupported, and fewer than three calls means the last was not |
| Qemu.ConvertStopsAtFirstSupported | pkg/image/qemu.go:114-131 | if convert methods 0..j-1 are rejected as unsupported and method j is not, exactly j+1 calls happen and the conversion succeeds exactly when call j does |
| Qemu.FailedConversionRemovesDest | pkg/image/qemu.go:122-128 | if the converter always fails, the destination is removed and a conversion error is returned |
| Qemu.Resize | pkg/image/qemu.go:187-201 | without preallocation exactly one unlimited, non-streaming `resize -f raw <image> <size>` call; with it, call k inserts the k-th resize method, with at most two calls; it fails exactly when the last run fails, wrapped with the image name; nothing is removed |
| Qemu.ResizePreallocationChain | pkg/image/qemu.go:190-200 | with preallocation every resize call but the last was rejected as unsupported, and a single call means it was not |
| Qemu.ResizeStopsAtFirstSupported | pkg/image/qemu.go:190-200 | if resize methods 0..j-1 are rejected as unsupported and method j is not, exactly j+1 calls happen and the resize succeeds exactly when call j does |
| Qemu.Info | pkg/image/qemu.go:218-233 | a disallowed scheme is refused with no invocation; otherwise exactly one `info --output=json` call under the introspection limits (never unlimited); a successful run gives the parsed information, or `InvalidJson` with the image and the decoder's error when it does not parse; a failed run yields the output, the error and, for nbd+unix, the nbdkit log |
| Qemu.Validate | pkg/image/qemu.go:261-267 | introspection errors pass through; after a successful introspection an unsupported format gives `InvalidFormat`, then a missing backing file gives `InvalidBackingFile`, then the capacity error; the capacity error is returned exactly when introspection succeeds, the format and backing file pass and available < virtual size; success exactly when the policy passes |
| Qemu.CreateBlankImage | pkg/image/qemu.go:300-320 | exactly one `create -f raw <dest> <size>` call, with `-o preallocation=falloc` appended exactly when preallocating; the destination is removed exactly when create fails, and the error is then the create error with the size, destination and cause; a chmod failure is reported without removal; success needs create and chmod 0660 to succeed |
| Qemu.Rebase | pkg/image/qemu.go:383-388 | exactly one `rebase -p -u -F raw -b <backing> <delta>` call with progress; it succeeds exactly when the run does, otherwise returns the run's error unchanged; nothing is removed |
| Qemu.Commit | pkg/image/qemu.go:391-396 | exactly one `commit -p <image>` call with progress; it succeeds exactly when the run does, otherwise returns the run's error unchanged; nothing is removed |
| Qemu.ExecPreallocationBlock | pkg/image/qemu.go:322-338 | it makes its own block-device probe; a failing probe is returned with no `dd` run; otherwise exactly one `dd` with the chunk's arguments and `,direct` when supported; a failure names the chunk's byte count and offset |
| Qemu.PreallocateBlankBlock | pkg/image/qemu.go:341-357 | call k writes chunk k of `Chunks(size)` with the direct flag of the k-th probe; a later run happens only after the earlier one succeeds, and after a successful run the next chunk is attempted unless its probe fails, which is returned as `ProbeFailed`; a failed run names its chunk's byte count and offset; success means every chunk was written; nothing is removed |

## Left out

- Subprocess execution (`system.ExecWithLimits`): the runner is the oracle `Env.run`. How limits are enforced, the difference between a limit kill and a tool error, and line streaming are not modelled. Only the `streamsProgress` flag records which runs feed the progress reporter.
- Filesystem I/O: `os.Remove` is the `removed` flag. `os.ReadFile` of the nbdkit log, `os.Stat` of backing files, `unix.Stat` and `os.Chmod` are the oracles `nbdkitLog`, `fileExists`, `stat` and `chmod`.
- `json.Unmarshal` in `checkOutputQemuImgInfo` is the oracle `parseInfo`, which answers the decoded information or the decoder's error; that error is returned as `InvalidJson` with the image name. The klog line that logs the unparsable output is not modelled.
- `convertQuantityToQemuSize`: it depends on the internals of Kubernetes quantities. Sizes are plain naturals rendered in decimal, so non-integer quantities are not modelled.
- PreallocateBlankBlock: takes a natural size. The `ParseInt` failure path and Go's truncating division of negative sizes therefore do not arise.
- The direct-I/O checker implementation: it is not part of this model, and the probes are oracles. The block-device checker is called again for every `dd` chunk, so `Env.checkBlock` takes the call's ordinal within the operation and may answer differently each time. The cache-mode choice is call 0 of its operation.
- Prometheus metric setup, klog logging, and the `init` read of the owner variable: the owner is a parameter, with `""` meaning unset.
- ReportProgress: assumes the metric read (`Get`) never fails. It works in exact integer hundredths, so float rounding in the accumulated counter is not modelled.
- The round trip "create a blank image of size S, then `info` reports S and raw" needs qemu-img's own semantics, which the runner oracle does not have.
- CreateFailed: carries the converted size in decimal bytes, where the source's message prints the quantity's own text (such as `10Gi`); quantities are not modelled (see `convertQuantityToQemuSize` above).
- Error messages are structured constructors rather than formatted strings. The exception is the `info` failure message, which is built exactly.
- `CacheModeTryNone` comes from pkg/common, which is not part of this model. It is the constant `"TRY_NONE"`.
- The package-level wrappers (`Resize`, `Info`, `ConvertToRawStream`, `Validate`, `CreateBlankImage`) and the `QEMUOperations` interface only forward to the methods modelled here. `networkTimeoutSecs` is unused.

=== FILE: blockfill.dfy ===
/** Zero-filling a block volume with `dd`: whole mebibyte blocks, then one remainder chunk. */
module BlockFill {
  import opened Strings

  /** units.MiB. */
  const MiB: nat := 0x10_0000

  /** One `dd` run: `count` blocks of `bs` bytes written from byte offset `seek`. */
  datatype DdChunk = DdChunk(bs: nat, count: nat, seek: nat)

  function Bytes(c: DdChunk): nat
  {
    c.bs * c.count
  }

  /** The chunk writes byte `offset`. */
  predicate Covers(c: DdChunk, offset: nat)
  {
    c.seek <= offset < c.seek + Bytes(c)
  }

  /** The `dd` runs PreallocateBlankBlock makes for a volume of `size` bytes, in order. */
  function Chunks(size: nat): (cs: seq<DdChunk>)
    ensures 1 <= |cs| <= 2
    ensures cs[0] == DdChunk(MiB, size / MiB, 0)
    ensures |cs| == 2 <==> size % MiB != 0
    ensures |cs| == 2 ==> cs[1] == DdChunk(size % MiB, 1, (size / MiB) * MiB)
  {
    var countBlocks, remainder := size / MiB, size % MiB;
    [DdChunk(MiB, countBlocks, 0)] + if remainder != 0 then [DdChunk(remainder, 1, countBlocks * MiB)] else []
  }

  /** Total bytes written by a list of runs. */
  function Total(cs: seq<DdChunk>): nat
  {
    if cs == [] then 0 else Bytes(cs[0]) + Total(cs[1..])
  }

  /** The runs are laid end to end from offset 0 and together write exactly `size` bytes. */
  lemma ChunksTileVolume(size: nat)
    ensures var cs := Chunks(size);
      && Total(cs) == size
      && cs[0].seek == 0
      && forall i :: 0 <= i < |cs| - 1 ==> cs[i].seek + Bytes(cs[i]) == cs[i + 1].seek
  {
    var cs := Chunks(size);
    assert size == (size / MiB) * MiB + size % MiB;
    assert Total(cs) == Bytes(cs[0]) + Total(cs[1..]);
    if |cs| == 2 {
      assert Total(cs[1..]) == Bytes(cs[1]) + Total(cs[2..]);
    }
  }

  /** Every byte of the volume is written by exactly one run, and no run writes past its end. */
  lemma EachByteWrittenOnce(size: nat, offset: nat)
    ensures var cs := Chunks(size);
      && (offset < size <==> exists i :: 0 <= i < |cs| && Covers(cs[i], offset))
      && forall i, j :: 0 <= i < |cs| && 0 <= j < |cs| && Covers(cs[i], offset) && Covers(cs[j], offset) ==> i == j
  {
    var cs := Chunks(size);
    assert size == (size / MiB) * MiB + size % MiB;
    assert Bytes(cs[0]) == (size / MiB) * MiB;
    if offset < size {
      if offset < Bytes(cs[0]) {
        assert Covers(cs[0], offset);
      } else {
        assert Covers(cs[1], offset);
      }
    }
  }

  /** The `dd` argument list for one run; `direct` adds O_DIRECT output. */
  function DdArgs(dest: string, c: DdChunk, direct: bool): (args: seq<string>)
    ensures |args| == 6
  {
    ["if=/dev/zero", "of=" + dest,
     "bs=" + NatToString(c.bs), "count=" + NatToString(c.count), "seek=" + NatToString(c.seek),
     "oflag=seek_bytes" + (if direct then ",direct" else "")]
  }

  /** The numeric fields of a `dd` argument list read back as the run they came from, and the
      output flag names direct I/O exactly when it was asked for. */
  lemma DdArgsRoundTrip(dest: string, c: DdChunk, direct: bool)
    ensures var args := DdArgs(dest, c, direct);
      && args[2][..3] == "bs=" && AllDigits(args[2][3..]) && ParseDigits(args[2][3..]) == c.bs
      && args[3][..6] == "count=" && AllDigits(args[3][6..]) && ParseDigits(args[3][6..]) == c.count
      && args[4][..5] == "seek=" && AllDigits(args[4][5..]) && ParseDigits(args[4][5..]) == c.seek
      && (direct <==> args[5] == "oflag=seek_bytes,direct")
  {
    var args := DdArgs(dest, c, direct);
    ParseNatToString(c.bs);
    ParseNatToString(c.count);
    ParseNatToString(c.seek);
    assert args[2][3..] == NatToString(c.bs);
    assert args[3][6..] == NatToString(c.count);
    assert args[4][5..] == NatToString(c.seek);
    if !direct {
      assert |args[5]| != |"oflag=seek_bytes,direct"|;
    }
  }
}

=== FILE: cachemode.dfy ===
/** Choosing qemu-img's destination cache mode (`-t`) from a hint and a direct-I/O probe. */
module CacheModes {
  import opened Results
  import opened Errors

  /** `writeback` goes through the page cache; `none` uses direct I/O. */
  datatype CacheMode = Writeback | NoCache

  function CacheModeArg(m: CacheMode): (arg: string)
    ensures arg == "none" <==> m == NoCache
  {
    match m
    case Writeback => "writeback"
    case NoCache => "none"
  }

  /** The hint that asks for auto-detection; every other hint means writeback. The constant
      is `common.CacheModeTryNone`; pkg/common is not part of this model. */
  const CacheModeTryNone: string := "TRY_NONE"

  /** What `unix.Stat` of the destination says: it does not exist, it is a block device,
      it is something else, or stat failed for another reason. */
  datatype StatOutcome = Missing | BlockDevice | OtherFile | StatError(cause: string)

  /** A direct-I/O checker: whether the target supports O_DIRECT, or why it could not tell. */
  type Probe = string -> Result<bool, string>

  /** The probe the source would use for a destination with this stat outcome. */
  function ProbeFor(stat: StatOutcome, checkFile: Probe, checkBlock: Probe): Probe
  {
    if stat == BlockDevice then checkBlock else checkFile
  }

  /** getCacheMode. */
  function GetCacheMode(path: string, hint: string, stat: StatOutcome, checkFile: Probe, checkBlock: Probe): (r: Result<CacheMode, Error>)
    ensures hint != CacheModeTryNone ==> r == Ok(Writeback)
    ensures (r == Ok(NoCache))
              <==> hint == CacheModeTryNone && !stat.StatError? && ProbeFor(stat, checkFile, checkBlock)(path) == Ok(true)
    ensures r.Err? <==> hint == CacheModeTryNone && (stat.StatError? || ProbeFor(stat, checkFile, checkBlock)(path).Err?)
    ensures r.Err? && stat.StatError? ==> r.error == StatFailed(stat.cause)
    ensures r.Err? && !stat.StatError? ==> r.error == ProbeFailed(ProbeFor(stat, checkFile, checkBlock)(path).error)
  {
    if hint != CacheModeTryNone then Ok(Writeback)
    else if stat.StatError? then Err(StatFailed(stat.cause))
    else
      var probe := ProbeFor(stat, checkFile, checkBlock)(path);
      match probe
      case Err(e) => Err(ProbeFailed(e))
      case Ok(supported) => if supported then Ok(NoCache) else Ok(Writeback)
  }

  /** Any hint other than try-none yields writeback without consulting stat or either probe. */
  lemma OtherHintsSkipProbing(path: string, hint: string, s1: StatOutcome, f1: Probe, b1: Probe, s2: StatOutcome, f2: Probe, b2: Probe)
    requires hint != CacheModeTryNone
    ensures GetCacheMode(path, hint, s1, f1, b1) == GetCacheMode(path, hint, s2, f2, b2) == Ok(Writeback)
  {
  }

  /** A block device is judged by the block-device probe alone; anything else that stat did
      not reject (including a destination that does not exist yet) by the file probe alone. */
  lemma ProbeSelection(path: string, stat: StatOutcome, f1: Probe, b1: Probe, f2: Probe, b2: Probe)
    requires !stat.StatError?
    ensures stat == BlockDevice && b1(path) == b2(path) ==>
      GetCacheMode(path, CacheModeTryNone, stat, f1, b1) == GetCacheMode(path, CacheModeTryNone, stat, f2, b2)
    ensures stat != BlockDevice && f1(path) == f2(path) ==>
      GetCacheMode(path, CacheModeTryNone, stat, f1, b1) == GetCacheMode(path, CacheModeTryNone, stat, f2, b2)
  {
  }
}

=== FILE: errors.dfy ===
/** The errors the engine reports, one constructor per distinct failure of the source. */
module Errors {
  import opened Results

  datatype Error =
    /** A source URL whose scheme the operation does not accept. */
    | InvalidScheme(scheme: string)
    /** The destination could not be inspected while choosing a cache mode. */
    | StatFailed(cause: string)
    /** The direct-I/O checker failed; its error is passed on unchanged. */
    | ProbeFailed(cause: string)
    /** `qemu-img convert` failed; the nbdkit log, when readable, is attached. */
    | ConvertFailed(cause: string, nbdkitLog: Option<string>)
    /** `qemu-img resize` failed on the named image. */
    | ResizeFailed(image: string, cause: string)
    /** `qemu-img info` failed; the message is the tool output, the error and maybe the nbdkit log. */
    | InfoFailed(message: string)
    /** `qemu-img info` output that is not a well-formed image description; `cause` is the
        decoder's error (the output itself is only logged). */
    | InvalidJson(image: string, cause: string)
    /** An image format outside the supported set. */
    | InvalidFormat(format: string, image: string)
    /** A backing file reference that does not resolve. */
    | InvalidBackingFile(image: string, backingFile: string)
    /** The distinguished capacity error: the volume is smaller than the image's virtual size. */
    | LargerPVCRequired(virtualSize: int, availableSize: int)
    /** `qemu-img create` failed; `sizeBytes` is the size as handed to qemu-img, in decimal bytes. */
    | CreateFailed(sizeBytes: string, dest: string, cause: string)
    /** The new image's permissions could not be set. */
    | ChmodFailed(cause: string)
    /** A `dd` zero-fill run failed. */
    | BlockFillFailed(dest: string, bytes: nat, offset: nat, cause: string)
    /** A tool failure returned as it is, without context (rebase, commit). */
    | ToolFailed(cause: string)
}

=== FILE: preallocation.dfy ===
/** The preallocation fallback chain: try each preallocation method in order, moving on only
    when the tool rejects the method as unsupported. */
module Preallocation {
  import opened Results
  import opened Strings
  import opened Process

  /** The diagnostic qemu-img prints for a preallocation mode the storage cannot do. */
  const UnsupportedSignature: string := "Unsupported preallocation mode"

  /** Methods tried by convert, fastest first: fallocate, full write, sparse zero-fill. */
  const ConvertMethods: seq<seq<string>> :=
    [["-o", "preallocation=falloc"], ["-o", "preallocation=full"], ["-S", "0"]]

  /** Methods tried by resize. */
  const ResizeMethods: seq<seq<string>> :=
    [["--preallocation=falloc"], ["--preallocation=full"]]

  /** The argument list for one attempt: the method's flags straight after the subcommand. */
  function WithMethod(args: seq<string>, flags: seq<string>): (r: seq<string>)
    requires |args| > 0
    ensures |r| == |args| + |flags|
    ensures r[0] == args[0]
    ensures r[1..1 + |flags|] == flags
    ensures r[1 + |flags|..] == args[1..]
  {
    [args[0]] + flags + args[1..]
  }

  /** A failure that carries the unsupported-mode diagnostic: the only reason to go on. */
  predicate Retriable(resp: Response)
  {
    resp.err.Some? && Contains(resp.output, UnsupportedSignature)
  }

  /** The argument lists actually run, in order, and the error the chain returns. */
  datatype Chain = Chain(attempts: seq<seq<string>>, err: Option<string>)

  /** What running the chain means, independently of how it is computed: attempt k uses
      method k; every attempt but the last was retriable; the chain stops early only on an
      attempt that is not retriable; the result is the last attempt's error. */
  predicate ChainSpec(args: seq<string>, methods: seq<seq<string>>, run: seq<string> -> Response, c: Chain)
  {
    && |c.attempts| <= |methods|
    && (c.attempts == [] <==> methods == [])
    && (forall k :: 0 <= k < |c.attempts| ==> |args| > 0 && c.attempts[k] == WithMethod(args, methods[k]))
    && (forall k :: 0 <= k < |c.attempts| - 1 ==> Retriable(run(c.attempts[k])))
    && (c.attempts == [] ==> c.err == None)
    && (c.attempts != [] ==> c.err == run(c.attempts[|c.attempts| - 1]).err)
    && (0 < |c.attempts| < |methods| ==> !Retriable(run(c.attempts[|c.attempts| - 1])))
  }

  /** addPreallocation: runs `args` with each method in turn until one is not rejected as
      unsupported, and returns that attempt's error (nil on success or an empty chain). */
  function TryMethods(args: seq<string>, methods: seq<seq<string>>, run: seq<string> -> Response): (c: Chain)
    requires methods != [] ==> |args| > 0
    ensures ChainSpec(args, methods, run, c)
    decreases |methods|
  {
    if methods == [] then Chain([], None)
    else
      var attempt := WithMethod(args, methods[0]);
      var resp := run(attempt);
      if Retriable(resp) && |methods| > 1 then
        var rest := TryMethods(args, methods[1..], run);
        RetriableHeadExtendsChain(args, methods, run, rest);
        Chain([attempt] + rest.attempts, rest.err)
      else
        Chain([attempt], resp.err)
  }

  /** A chain over the remaining methods, preceded by a retriable first attempt, is a chain
      over all of them. */
  lemma RetriableHeadExtendsChain(args: seq<string>, methods: seq<seq<string>>, run: seq<string> -> Response, rest: Chain)
    requires |methods| > 1 && |args| > 0
    requires Retriable(run(WithMethod(args, methods[0])))
    requires ChainSpec(args, methods[1..], run, rest)
    ensures ChainSpec(args, methods, run, Chain([WithMethod(args, methods[0])] + rest.attempts, rest.err))
  {
    var attempts := [WithMethod(args, methods[0])] + rest.attempts;
    var n := |attempts|;
    assert n == |rest.attempts| + 1;
    assert rest.attempts != [];
    ShiftedAttempts(args, methods, rest.attempts);
    assert attempts[n - 1] == rest.attempts[|rest.attempts| - 1];
    forall k | 0 <= k < n - 1
      ensures Retriable(run(attempts[k]))
    {
      if k > 0 {
        assert attempts[k] == rest.attempts[k - 1];
      }
    }
  }

  /** Attempts that follow the remaining methods, preceded by the first method's attempt,
      follow all of the methods. */
  lemma ShiftedAttempts(args: seq<string>, methods: seq<seq<string>>, restAttempts: seq<seq<string>>)
    requires |methods| > 0 && |args| > 0 && |restAttempts| < |methods|
    requires forall k :: 0 <= k < |restAttempts| ==> restAttempts[k] == WithMethod(args, methods[1..][k])
    ensures var attempts := [WithMethod(args, methods[0])] + restAttempts;
      forall k :: 0 <= k < |attempts| ==> attempts[k] == WithMethod(args, methods[k])
  {
    var attempts := [WithMethod(args, methods[0])] + restAttempts;
    forall k | 1 <= k < |attempts|
      ensures attempts[k] == WithMethod(args, methods[k])
    {
      assert attempts[k] == restAttempts[k - 1];
      assert methods[1..][k - 1] == methods[k];
    }
  }

  /** ChainSpec leaves no freedom: two chains that both meet it are the same chain. */
  lemma ChainSpecDeterminesChain(args: seq<string>, methods: seq<seq<string>>, run: seq<string> -> Response, c1: Chain, c2: Chain)
    requires ChainSpec(args, methods, run, c1) && ChainSpec(args, methods, run, c2)
    ensures c1 == c2
  {
    var n1, n2 := |c1.attempts|, |c2.attempts|;
    if n1 > 0 && n2 > 0 {
      // the shorter chain's last attempt is also an attempt of the longer one
      var m := if n1 < n2 then n1 else n2;
      assert c1.attempts[m - 1] == c2.attempts[m - 1];
    }
    assert c1.attempts == c2.attempts;
  }

  /** The first method that is not rejected as unsupported is the last one tried: the chain
      makes exactly j + 1 attempts, in list order, and returns that attempt's error (nil on
      success, the other error otherwise). */
  lemma StopsAtFirstNonRetriable(args: seq<string>, methods: seq<seq<string>>, run: seq<string> -> Response, j: nat)
    requires j < |methods| && |args| > 0
    requires forall k :: 0 <= k < j ==> Retriable(run(WithMethod(args, methods[k])))
    requires !Retriable(run(WithMethod(args, methods[j])))
    ensures var c := TryMethods(args, methods, run);
      && |c.attempts| == j + 1
      && (forall k :: 0 <= k <= j ==> c.attempts[k] == WithMethod(args, methods[k]))
      && c.err == run(WithMethod(args, methods[j])).err
  {
    SpecStopsAtFirstNonRetriable(args, methods, run, TryMethods(args, methods, run), j);
  }

  /** StopsAtFirstNonRetriable for any chain that meets the specification. */
  lemma SpecStopsAtFirstNonRetriable(args: seq<string>, methods: seq<seq<string>>, run: seq<string> -> Response, c: Chain, j: nat)
    requires j < |methods| && |args| > 0
    requires forall k :: 0 <= k < j ==> Retriable(run(WithMethod(args, methods[k])))
    requires !Retriable(run(WithMethod(args, methods[j])))
    requires ChainSpec(args, methods, run, c)
    ensures |c.attempts| == j + 1
    ensures forall k :: 0 <= k <= j ==> c.attempts[k] == WithMethod(args, methods[k])
    ensures c.err == run(WithMethod(args, methods[j])).err
  {
    var n := |c.attempts|;
    // the last attempt is method n-1's, so it is retriable when n-1 < j
    assert c.attempts[n - 1] == WithMethod(args, methods[n - 1]);
    // attempt j, when it exists, is method j's and so is not retriable
    assert j < n ==> c.attempts[j] == WithMethod(args, methods[j]);
    assert n == j + 1;
  }

  /** When every method is rejected as unsupported, all of them are tried and the last
      rejection is what the chain returns. */
  lemma AllUnsupportedReturnsLast(args: seq<string>, methods: seq<seq<string>>, run: seq<string> -> Response)
    requires |methods| > 0 && |args| > 0
    requires forall k :: 0 <= k < |methods| ==> Retriable(run(WithMethod(args, methods[k])))
    ensures var c := TryMethods(args, methods, run);
      && |c.attempts| == |methods|
      && c.err.Some?
      && c.err == run(WithMethod(args, methods[|methods| - 1])).err
  {
    var c := TryMethods(args, methods, run);
    var n := |c.attempts|;
    assert c.attempts[n - 1] == WithMethod(args, methods[n - 1]);
  }
}

=== FILE: process.dfy ===
/** The resource-limited subprocess runner, seen from the outside: what the engine asks it to
    run and what it answers. The runner itself is an oracle supplied by the caller. */
module Process {
  import opened Results

  /** Address-space and CPU-time caps for one child process. */
  datatype Limits = Limits(addressSpaceBytes: nat, cpuSeconds: nat)

  /** 1 << 30 bytes, the OpenStack Nova value. */
  const MaxMemory: nat := 0x4000_0000
  /** CPU seconds allowed to an introspection run, the OpenStack Nova value. */
  const MaxCpuSecs: nat := 30

  /** The limits every `qemu-img info` run is given. */
  const InfoLimits: Limits := Limits(MaxMemory, MaxCpuSecs)

  const QemuImg: string := "qemu-img"
  const Dd: string := "dd"

  /** One request to the runner: the tool, optional limits, whether diagnostic lines are
      forwarded to the progress reporter, and the argument list. */
  datatype Invocation = Invocation(tool: string, limits: Option<Limits>, streamsProgress: bool, args: seq<string>)

  /** The runner's answer: the tool's primary output and, on failure, the error text. */
  datatype Response = Response(output: string, err: Option<string>)
}

=== FILE: progress.dfy ===
/** Progress reporting: pick `(NN.NN/100%)` out of qemu-img's diagnostic lines and publish
    only increases of a per-owner progress metric. Percentages are integer hundredths. */
module Progress {
  import opened Results
  import opened Strings

  const Suffix: string := "/100%)"

  /** The value of the pattern `\((\d?\d\.\d\d)\/100%\)` when it matches `s` starting at `i`,
      in hundredths of a percent. The optional digit is greedy, so the two-digit form is tried
      first; the two forms cannot both match at one position. */
  function MatchAt(s: string, i: nat): Option<nat>
  {
    if i + 12 <= |s| && s[i] == '(' && IsDigit(s[i + 1]) && IsDigit(s[i + 2]) && s[i + 3] == '.'
       && IsDigit(s[i + 4]) && IsDigit(s[i + 5]) && s[i + 6..i + 12] == Suffix
    then
      Some(1000 * DigitValue(s[i + 1]) + 100 * DigitValue(s[i + 2]) + 10 * DigitValue(s[i + 4]) + DigitValue(s[i + 5]))
    else if i + 11 <= |s| && s[i] == '(' && IsDigit(s[i + 1]) && s[i + 2] == '.'
       && IsDigit(s[i + 3]) && IsDigit(s[i + 4]) && s[i + 5..i + 11] == Suffix
    then
      Some(100 * DigitValue(s[i + 1]) + 10 * DigitValue(s[i + 3]) + DigitValue(s[i + 4]))
    else
      None
  }

  /** The first match at or after position `i`. */
  function FindFrom(s: string, i: nat): (r: Option<nat>)
    ensures r.Some? ==> r.value < 10000
    decreases |s| - i
  {
    if i >= |s| then None
    else if MatchAt(s, i).Some? then MatchAt(s, i)
    else FindFrom(s, i + 1)
  }

  /** The captured percentage of the leftmost match in `line`, as `FindStringSubmatch` gives it. */
  function MatchProgress(line: string): (r: Option<nat>)
    ensures r.Some? ==> r.value < 10000
  {
    FindFrom(line, 0)
  }

  /** Scanning from `i` finds the match at `k` when nothing matches in between. */
  lemma {:induction false} FindFromSkips(s: string, i: nat, k: nat)
    requires i <= k
    requires forall j :: i <= j < k ==> MatchAt(s, j).None?
    ensures MatchAt(s, k).Some? ==> FindFrom(s, i) == MatchAt(s, k)
    ensures k >= |s| ==> FindFrom(s, i) == None
    decreases k - i
  {
    if i < k && i < |s| {
      FindFromSkips(s, i + 1, k);
    }
  }

  /** The matcher returns the leftmost match: v is returned exactly when the pattern matches
      with value v at some position and nowhere before it. */
  lemma {:induction false} MatchProgressIsLeftmost(line: string, i: nat, v: nat)
    requires MatchAt(line, i) == Some(v)
    requires forall j :: 0 <= j < i ==> MatchAt(line, j).None?
    ensures MatchProgress(line) == Some(v)
  {
    FindFromSkips(line, 0, i);
  }

  /** No match anywhere means nothing is reported. */
  lemma {:induction false} NoMatchNoProgress(line: string)
    requires forall j :: 0 <= j < |line| ==> MatchAt(line, j).None?
    ensures MatchProgress(line) == None
  {
    FindFromSkips(line, 0, |line|);
  }

  /** qemu-img's `(%.2f/100%)` rendering of a percentage below 100, in hundredths. */
  function Render(v: nat): string
    requires v < 10000
  {
    var frac := [DigitChar(v / 10 % 10), DigitChar(v % 10)];
    if v >= 1000 then "(" + [DigitChar(v / 1000), DigitChar(v / 100 % 10)] + "." + frac + Suffix
    else "(" + [DigitChar(v / 100)] + "." + frac + Suffix
  }

  lemma DigitRoundTrip(d: nat)
    requires d < 10
    ensures DigitValue(DigitChar(d)) == d
  {
  }

  /** The decimal digits of a value below 10000 give the value back. */
  lemma DigitsOfValue(v: nat)
    requires v < 10000
    ensures v == 1000 * (v / 1000) + 100 * (v / 100 % 10) + 10 * (v / 10 % 10) + v % 10
    ensures v < 1000 ==> v == 100 * (v / 100) + 10 * (v / 10 % 10) + v % 10
  {
  }

  /** The pattern matches the rendered text at the position where it starts. */
  lemma MatchAtRender(prefix: string, v: nat, rest: string)
    requires v < 10000
    ensures MatchAt(prefix + Render(v) + rest, |prefix|) == Some(v)
  {
    if v >= 1000 {
      MatchAtRenderTwoDigits(prefix, v, rest);
    } else {
      MatchAtRenderOneDigit(prefix, v, rest);
    }
  }

  lemma MatchAtRenderTwoDigits(prefix: string, v: nat, rest: string)
    requires 1000 <= v < 10000
    ensures MatchAt(prefix + Render(v) + rest, |prefix|) == Some(v)
  {
    var s := prefix + Render(v) + rest;
    var r := Render(v);
    var i := |prefix|;
    var a, b, c, d := v / 1000, v / 100 % 10, v / 10 % 10, v % 10;
    assert r == ['(', DigitChar(a), DigitChar(b), '.', DigitChar(c), DigitChar(d)] + Suffix;
    assert |r| == 12;
    assert s[i..i + 12] == r;
    assert forall k :: 0 <= k < |r| ==> s[i + k] == r[k];
    assert r[0] == '(' && r[1] == DigitChar(a) && r[2] == DigitChar(b) && r[3] == '.';
    assert r[4] == DigitChar(c) && r[5] == DigitChar(d);
    assert s[i + 6..i + 12] == r[6..] == Suffix;
    DigitRoundTrip(a);
    DigitRoundTrip(b);
    DigitRoundTrip(c);
    DigitRoundTrip(d);
    DigitsOfValue(v);
  }

  lemma MatchAtRenderOneDigit(prefix: string, v: nat, rest: string)
    requires v < 1000
    ensures MatchAt(prefix + Render(v) + rest, |prefix|) == Some(v)
  {
    var s := prefix + Render(v) + rest;
    var r := Render(v);
    var i := |prefix|;
    var a, c, d := v / 100, v / 10 % 10, v % 10;
    assert r == ['(', DigitChar(a), '.', DigitChar(c), DigitChar(d)] + Suffix;
    assert |r| == 11;
    assert s[i..i + 11] == r;
    assert forall k :: 0 <= k < |r| ==> s[i + k] == r[k];
    assert r[0] == '(' && r[1] == DigitChar(a) && r[2] == '.';
    assert r[3] == DigitChar(c) && r[4] == DigitChar(d);
    assert s[i + 5..i + 11] == r[5..] == Suffix;
    DigitRoundTrip(a);
    DigitRoundTrip(c);
    DigitRoundTrip(d);
    DigitsOfValue(v);
  }

  /** A rendered percentage is read back exactly, wherever it sits in a line whose text before
      it holds no opening parenthesis. */
  lemma {:induction false} MatchRender(prefix: string, v: nat, rest: string)
    requires v < 10000
    requires forall j :: 0 <= j < |prefix| ==> prefix[j] != '('
    ensures MatchProgress(prefix + Render(v) + rest) == Some(v)
  {
    var s := prefix + Render(v) + rest;
    forall j | 0 <= j < |prefix|
      ensures MatchAt(s, j).None?
    {
      assert s[j] == prefix[j];
    }
    MatchAtRender(prefix, v, rest);
    MatchProgressIsLeftmost(s, |prefix|, v);
  }

  /** qemu-img's final `(100.00/100%)` line does not match the pattern, so the metric never
      reaches 100 through this reporter. */
  lemma HundredPercentNotMatched()
    ensures MatchProgress("(100.00/100%)") == None
  {
    var s := "(100.00/100%)";
    forall j | 0 <= j < |s|
      ensures MatchAt(s, j).None?
    {
      if j > 0 {
        assert s[j] != '(';
      }
    }
    NoMatchNoProgress(s);
  }

  /** The progress metric: a counter per owner; an owner never seen reads 0. */
  type Metric = map<string, nat>

  function Value(m: Metric, owner: string): nat
  {
    if owner in m then m[owner] else 0
  }

  /** The metric after one line, and the increment published for it (0 when none). */
  datatype Report = Report(metric: Metric, delta: nat)

  /** reportProgress: with an owner set and a matching line carrying v, adds v - progress
      when v > 0 and v > progress; everything else is ignored. */
  function ReportProgress(line: string, owner: string, m: Metric): (r: Report)
    ensures owner == "" || MatchProgress(line).None? ==> r == Report(m, 0)
    ensures owner != "" && MatchProgress(line).Some? ==>
      Value(r.metric, owner) == Max(Value(m, owner), MatchProgress(line).value)
    ensures r.delta == Value(r.metric, owner) - Value(m, owner)
    ensures forall o :: o != owner ==> Value(r.metric, o) == Value(m, o)
  {
    match MatchProgress(line)
    case Some(v) =>
      var progress := Value(m, owner);
      if owner != "" && v > 0 && v > progress then
        Report(m[owner := progress + (v - progress)], v - progress)
      else
        Report(m, 0)
    case None => Report(m, 0)
  }

  function Max(a: nat, b: nat): nat
  {
    if a < b then b else a
  }

  /** Feeding lines in order: the final metric and the increments published, in order. */
  datatype Published = Published(metric: Metric, deltas: seq<nat>)

  function ReportAll(lines: seq<string>, owner: string, m: Metric): Published
    decreases |lines|
  {
    if lines == [] then Published(m, [])
    else
      var r := ReportProgress(lines[0], owner, m);
      var rest := ReportAll(lines[1..], owner, r.metric);
      Published(rest.metric, (if r.delta > 0 then [r.delta] else []) + rest.deltas)
  }

  /** The largest of `init` and the percentages the lines carry. */
  function HighWater(init: nat, lines: seq<string>): nat
    decreases |lines|
  {
    if lines == [] then init
    else
      var seen := match MatchProgress(lines[0]) case Some(v) => Max(init, v) case None => init;
      HighWater(seen, lines[1..])
  }

  function Sum(xs: seq<nat>): nat
  {
    if xs == [] then 0 else xs[0] + Sum(xs[1..])
  }

  /** With an owner set, the metric ends at the high-water mark of its start value and every
      percentage seen; only positive increments are published, and they add up to the rise.
      Other owners' values are untouched. */
  lemma {:induction false} ReportAllHighWater(lines: seq<string>, owner: string, m: Metric)
    requires owner != ""
    ensures var p := ReportAll(lines, owner, m);
      && Value(p.metric, owner) == HighWater(Value(m, owner), lines)
      && Value(p.metric, owner) >= Value(m, owner)
      && (forall k :: 0 <= k < |p.deltas| ==> p.deltas[k] > 0)
      && Sum(p.deltas) == Value(p.metric, owner) - Value(m, owner)
      && (forall o :: o != owner ==> Value(p.metric, o) == Value(m, o))
    decreases |lines|
  {
    if lines != [] {
      var r := ReportProgress(lines[0], owner, m);
      ReportAllHighWater(lines[1..], owner, r.metric);
      var rest := ReportAll(lines[1..], owner, r.metric);
      var head: seq<nat> := if r.delta > 0 then [r.delta] else [];
      assert Sum(head + rest.deltas) == Sum(head) + Sum(rest.deltas) by {
        if r.delta > 0 {
          assert (head + rest.deltas)[0] == r.delta;
          assert (head + rest.deltas)[1..] == rest.deltas;
          assert Sum(head) == r.delta + Sum(head[1..]);
          assert head[1..] == [];
        } else {
          assert head + rest.deltas == rest.deltas;
        }
      }
    }
  }

  /** Without an owner nothing is ever published. */
  lemma {:induction false} NoOwnerNoPublication(lines: seq<string>, m: Metric)
    ensures ReportAll(lines, "", m) == Published(m, [])
    decreases |lines|
  {
    if lines != [] {
      NoOwnerNoPublication(lines[1..], m);
    }
  }

  /** One line fed to the reporter with an owner set: what it publishes and where the owner's
      value ends up, in terms of the parsed percentage. */
  lemma ReportStep(lines: seq<string>, owner: string, m: Metric, v: nat)
    requires owner != "" && lines != [] && MatchProgress(lines[0]) == Some(v)
    ensures var r := ReportProgress(lines[0], owner, m);
      && Value(r.metric, owner) == Max(Value(m, owner), v)
      && ReportAll(lines, owner, m).deltas
         == (if v > Value(m, owner) then [v - Value(m, owner)] else []) + ReportAll(lines[1..], owner, r.metric).deltas
  {
  }

  /** Any five lines carrying 10, 5, 20, 20, 30 give exactly three publications of 10 each:
      the drop to 5 and the repeated 20 publish nothing. */
  lemma FiveLineScenario(lines: seq<string>, owner: string)
    requires owner != "" && |lines| == 5
    requires MatchProgress(lines[0]) == Some(1000) && MatchProgress(lines[1]) == Some(500)
    requires MatchProgress(lines[2]) == Some(2000) && MatchProgress(lines[3]) == Some(2000)
    requires MatchProgress(lines[4]) == Some(3000)
    ensures ReportAll(lines, owner, map[]).deltas == [1000, 1000, 1000]
  {
    var m0: Metric := map[];
    var m1 := ReportProgress(lines[0], owner, m0).metric;
    var m2 := ReportProgress(lines[1], owner, m1).metric;
    var m3 := ReportProgress(lines[2], owner, m2).metric;
    var m4 := ReportProgress(lines[3], owner, m3).metric;
    ReportStep(lines, owner, m0, 1000);
    ReportStep(lines[1..], owner, m1, 500);
    ReportStep(lines[2..], owner, m2, 2000);
    ReportStep(lines[3..], owner, m3, 2000);
    ReportStep(lines[4..], owner, m4, 3000);
    assert lines[1..][1..] == lines[2..];
    assert lines[2..][1..] == lines[3..];
    assert lines[3..][1..] == lines[4..];
    assert lines[4..][1..] == [];
  }

  /** The scenario with qemu-img's own rendering of the five percentages. */
  lemma MonotoneScenario(owner: string)
    requires owner != ""
    ensures ReportAll([Render(1000), Render(500), Render(2000), Render(2000), Render(3000)], owner, map[]).deltas
      == [1000, 1000, 1000]
  {
    var lines := [Render(1000), Render(500), Render(2000), Render(2000), Render(3000)];
    forall k | 0 <= k < |lines|
      ensures MatchProgress(lines[k]) == Some([1000, 500, 2000, 2000, 3000][k])
    {
      var v := [1000, 500, 2000, 2000, 3000][k];
      MatchRender("", v, "");
      assert "" + Render(v) + "" == lines[k];
    }
    FiveLineScenario(lines, owner);
  }
}

=== FILE: qemu.dfy ===
/** The qemu-img/dd wrapper of the import engine: each public operation as a function of an
    environment of oracles, returning the subprocess invocations it makes, whether it removed
    the destination, and its result. */
module Qemu {
  import opened Results
  import opened Strings
  import opened Errors
  import opened Process
  import opened Preallocation
  import opened Validation
  import opened CacheModes
  import opened BlockFill

  /** Everything the engine asks of its surroundings. `run` is the resource-limited runner;
      `stat`, `checkFile` and `checkBlock` inspect the destination; `fileExists` stands for
      `os.Stat` of a backing file; `nbdkitLog` is the nbdkit log when it can be read;
      `parseInfo` decodes `qemu-img info` JSON or answers the decoder's error; `chmod` answers an error or None.
      The block-device checker is never cached, so its answer may change from one call to the
      next: `checkBlock(path, k)` is the answer to the k-th call within one operation. */
  datatype Env = Env(
    run: Invocation -> Response,
    stat: string -> StatOutcome,
    checkFile: Probe,
    checkBlock: (string, nat) -> Result<bool, string>,
    fileExists: string -> bool,
    nbdkitLog: Option<string>,
    parseInfo: string -> Result<ImgInfo, string>,
    chmod: (string, nat) -> Option<string>)

  /** A source URL: its scheme and its `String()` rendering. */
  datatype Url = Url(scheme: string, text: string)

  /** The observable effect of an operation. */
  datatype Run<T> = Run(calls: seq<Invocation>, removed: bool, result: Result<T, Error>)

  /** Octal 0660: read and write for owner and group. */
  const ImagePermissions: nat := 432

  function Last<T>(s: seq<T>): T
    requires |s| > 0
  {
    s[|s| - 1]
  }

  /** qemu-img runs without limits, for each argument list in turn. */
  function QemuCalls(argLists: seq<seq<string>>, progress: bool): (calls: seq<Invocation>)
    ensures |calls| == |argLists|
    ensures forall k :: 0 <= k < |calls| ==> calls[k] == Invocation(QemuImg, None, progress, argLists[k])
  {
    seq(|argLists|, k requires 0 <= k < |argLists| => Invocation(QemuImg, None, progress, argLists[k]))
  }

  /** The runner as the fallback chain sees it: an argument list in, a response out. */
  function QemuRunner(env: Env, progress: bool): seq<string> -> Response
  {
    a => env.run(Invocation(QemuImg, None, progress, a))
  }

  /** The block-device checker as seen by its k-th call within an operation. */
  function BlockProbe(env: Env, k: nat): Probe
  {
    p => env.checkBlock(p, k)
  }

  /** The cache mode convertToRaw chooses for `dest`; it calls each checker at most once. */
  function DestCacheMode(env: Env, dest: string, hint: string): Result<CacheMode, Error>
  {
    GetCacheMode(dest, hint, env.stat(dest), env.checkFile, BlockProbe(env, 0))
  }

  /** The argument lists of a sequence of runs. */
  function ArgsOf(calls: seq<Invocation>): (argLists: seq<seq<string>>)
    ensures |argLists| == |calls|
    ensures forall k :: 0 <= k < |calls| ==> argLists[k] == calls[k].args
  {
    seq(|calls|, k requires 0 <= k < |calls| => calls[k].args)
  }

  /** The qemu-img runs of one operation and the error they end with. */
  datatype Attempts = Attempts(calls: seq<Invocation>, err: Option<string>)

  /** One plain qemu-img run, or the preallocation chain over `methods` when asked to. */
  function RunQemu(env: Env, args: seq<string>, progress: bool, preallocate: bool, methods: seq<seq<string>>): (a: Attempts)
    requires |args| > 0 && |methods| > 0
    ensures 0 < |a.calls| <= (if preallocate then |methods| else 1)
    ensures a.err == env.run(Last(a.calls)).err
    ensures !preallocate ==> a.calls == [Invocation(QemuImg, None, progress, args)]
    ensures forall c :: c in a.calls ==>
      && c.tool == QemuImg && c.limits == None && c.streamsProgress == progress
      && |c.args| >= |args| && c.args[0] == args[0] && c.args[|c.args| - (|args| - 1)..] == args[1..]
    ensures preallocate ==> forall k :: 0 <= k < |a.calls| ==>
      a.calls[k] == Invocation(QemuImg, None, progress, WithMethod(args, methods[k]))
  {
    if preallocate then
      var c := TryMethods(args, methods, QemuRunner(env, progress));
      ChainCalls(env, args, progress, methods);
      Attempts(QemuCalls(c.attempts, progress), c.err)
    else
      var call := Invocation(QemuImg, None, progress, args);
      Attempts([call], env.run(call).err)
  }

  /** With preallocation the runs are the fallback chain: every run but the last was rejected
      as unsupported, and a chain shorter than the method list stopped on a run that was not.
      The runs and the error meet `ChainSpec`, so they are exactly the ones `TryMethods`
      computes. */
  lemma RunQemuMeetsChainSpec(env: Env, args: seq<string>, progress: bool, methods: seq<seq<string>>)
    requires |args| > 0 && |methods| > 0
    ensures var a := RunQemu(env, args, progress, true, methods);
      && (forall k :: 0 <= k < |a.calls| - 1 ==> Retriable(env.run(a.calls[k])))
      && (|a.calls| < |methods| ==> !Retriable(env.run(Last(a.calls))))
      && ChainSpec(args, methods, QemuRunner(env, progress), Chain(ArgsOf(a.calls), a.err))
      && Chain(ArgsOf(a.calls), a.err) == TryMethods(args, methods, QemuRunner(env, progress))
  {
    var a := RunQemu(env, args, progress, true, methods);
    var c := TryMethods(args, methods, QemuRunner(env, progress));
    ChainCalls(env, args, progress, methods);
    assert a == Attempts(QemuCalls(c.attempts, progress), c.err);
  }

  /** The runs of the fallback chain as runner invocations. */
  lemma ChainCalls(env: Env, args: seq<string>, progress: bool, methods: seq<seq<string>>)
    requires |args| > 0 && |methods| > 0
    ensures var c := TryMethods(args, methods, QemuRunner(env, progress));
      var calls := QemuCalls(c.attempts, progress);
      && 0 < |calls| <= |methods|
      && c.err == env.run(Last(calls)).err
      && (forall k :: 0 <= k < |calls| ==>
            calls[k] == Invocation(QemuImg, None, progress, WithMethod(args, methods[k])))
      && (forall inv :: inv in calls ==>
            && inv.tool == QemuImg && inv.limits == None && inv.streamsProgress == progress
            && |inv.args| >= |args| && inv.args[0] == args[0] && inv.args[|inv.args| - (|args| - 1)..] == args[1..])
      && (forall k :: 0 <= k < |calls| - 1 ==> Retriable(env.run(calls[k])))
      && (|calls| < |methods| ==> !Retriable(env.run(Last(calls))))
      && ArgsOf(calls) == c.attempts
  {
    var run := QemuRunner(env, progress);
    var c := TryMethods(args, methods, run);
    var calls := QemuCalls(c.attempts, progress);
    assert Last(calls) == Invocation(QemuImg, None, progress, Last(c.attempts));
    assert c.err == run(Last(c.attempts)).err;
    forall k | 0 <= k < |calls|
      ensures run(c.attempts[k]) == env.run(calls[k])
    {
    }
    assert ArgsOf(calls) == c.attempts;
    forall inv | inv in calls
      ensures inv.tool == QemuImg && inv.limits == None && inv.streamsProgress == progress
      ensures |inv.args| >= |args| && inv.args[0] == args[0] && inv.args[|inv.args| - (|args| - 1)..] == args[1..]
    {
      var k :| 0 <= k < |calls| && calls[k] == inv;
      assert inv.args == WithMethod(args, methods[k]);
    }
  }

  /** The plain convert argument list. */
  function ConvertArgs(mode: CacheMode, src: string, dest: string): seq<string>
  {
    ["convert", "-t", CacheModeArg(mode), "-p", "-O", "raw", src, dest]
  }

  /** The conversion once the cache mode is chosen: run the converter (through the
      preallocation chain when asked) and on a tool failure remove the destination and attach
      the nbdkit log. */
  function ConvertWithMode(env: Env, mode: CacheMode, src: string, dest: string, preallocate: bool): (r: Run<()>)
    ensures 0 < |r.calls| <= (if preallocate then |ConvertMethods| else 1)
    ensures forall c :: c in r.calls ==>
      && c.tool == QemuImg && c.limits == None && c.streamsProgress
      && |c.args| >= 8 && c.args[0] == "convert" && c.args[|c.args| - 2] == src && c.args[|c.args| - 1] == dest
    ensures r.removed <==> r.result.Err?
    ensures r.result.Ok? <==> env.run(Last(r.calls)).err == None
    ensures r.result.Err? ==> r.result == Err(ConvertFailed(env.run(Last(r.calls)).err.value, env.nbdkitLog))
  {
    var a := RunQemu(env, ConvertArgs(mode, src, dest), true, preallocate, ConvertMethods);
    match a.err
    case Some(e) => Run(a.calls, true, Err(ConvertFailed(e, env.nbdkitLog)))
    case None => Run(a.calls, false, Ok(()))
  }

  /** The converter's runs are the qemu-img runs for the plain convert argument list. */
  lemma ConvertRuns(env: Env, url: Url, dest: string, preallocate: bool, hint: string, mode: CacheMode)
    requires ConvertSchemeAllowed(url.scheme)
    requires DestCacheMode(env, dest, hint) == Ok(mode)
    ensures ConvertToRawStream(env, url, dest, preallocate, hint).calls
      == RunQemu(env, ConvertArgs(mode, url.text, dest), true, preallocate, ConvertMethods).calls
  {
    assert ConvertToRawStream(env, url, dest, preallocate, hint) == ConvertWithMode(env, mode, url.text, dest, preallocate);
  }

  /** convertToRaw: choose the cache mode, then convert. A cache-mode failure is returned
      before anything runs, and the destination is then left in place. */
  function ConvertToRaw(env: Env, src: string, dest: string, preallocate: bool, hint: string): (r: Run<()>)
    ensures DestCacheMode(env, dest, hint).Err? ==> r == Run([], false, Err(DestCacheMode(env, dest, hint).error))
    ensures DestCacheMode(env, dest, hint).Ok? ==> r == ConvertWithMode(env, DestCacheMode(env, dest, hint).value, src, dest, preallocate)
    ensures forall c :: c in r.calls ==>
      && c.tool == QemuImg && c.limits == None && c.streamsProgress
      && |c.args| >= 8 && c.args[0] == "convert" && c.args[|c.args| - 2] == src && c.args[|c.args| - 1] == dest
    ensures |r.calls| <= (if preallocate then |ConvertMethods| else 1)
    ensures r.removed <==> r.result.Err? && r.result.error.ConvertFailed?
    ensures r.calls == [] <==> r.result.Err? && !r.result.error.ConvertFailed?
    ensures r.calls != [] ==> (r.result.Ok? <==> env.run(Last(r.calls)).err == None)
    ensures r.calls != [] && r.result.Err? ==>
      r.result.error == ConvertFailed(env.run(Last(r.calls)).err.value, env.nbdkitLog)
  {
    match DestCacheMode(env, dest, hint)
    case Err(e) => Run([], false, Err(e))
    case Ok(mode) => ConvertWithMode(env, mode, src, dest, preallocate)
  }

  /** ConvertToRawStream: a local path or an nbd+unix export only; anything else is refused
      before any subprocess runs. */
  function ConvertToRawStream(env: Env, url: Url, dest: string, preallocate: bool, hint: string): (r: Run<()>)
    ensures !ConvertSchemeAllowed(url.scheme) ==> r == Run([], false, Err(InvalidScheme(url.scheme)))
    ensures ConvertSchemeAllowed(url.scheme) ==> r == ConvertToRaw(env, url.text, dest, preallocate, hint)
  {
    if !ConvertSchemeAllowed(url.scheme) then Run([], false, Err(InvalidScheme(url.scheme)))
    else ConvertToRaw(env, url.text, dest, preallocate, hint)
  }

  /** Without preallocation the converter runs once, with exactly this argument list. */
  lemma ConvertArgsExact(env: Env, url: Url, dest: string, hint: string, mode: CacheMode)
    requires ConvertSchemeAllowed(url.scheme)
    requires DestCacheMode(env, dest, hint) == Ok(mode)
    ensures ConvertToRawStream(env, url, dest, false, hint).calls
      == [Invocation(QemuImg, None, true, ["convert", "-t", CacheModeArg(mode), "-p", "-O", "raw", url.text, dest])]
  {
  }

  /** With preallocation the converter runs the convert chain: attempt k inserts the k-th
      convert method after the subcommand, every attempt but the last was rejected as
      unsupported, and a chain that stops before the last method stopped on an attempt that
      was not. */
  lemma ConvertPreallocationChain(env: Env, url: Url, dest: string, hint: string, mode: CacheMode)
    requires ConvertSchemeAllowed(url.scheme)
    requires DestCacheMode(env, dest, hint) == Ok(mode)
    ensures var r := ConvertToRawStream(env, url, dest, true, hint);
      && 0 < |r.calls| <= 3
      && (forall k :: 0 <= k < |r.calls| ==>
            r.calls[k] == Invocation(QemuImg, None, true, WithMethod(ConvertArgs(mode, url.text, dest), ConvertMethods[k])))
      && (forall k :: 0 <= k < |r.calls| - 1 ==> Retriable(env.run(r.calls[k])))
      && (|r.calls| < 3 ==> !Retriable(env.run(Last(r.calls))))
  {
    ConvertRuns(env, url, dest, true, hint, mode);
    RunQemuMeetsChainSpec(env, ConvertArgs(mode, url.text, dest), true, ConvertMethods);
  }

  /** The preallocating converter runs exactly up to the first convert method that is not
      rejected as unsupported, and the conversion's outcome is that run's. */
  lemma ConvertStopsAtFirstSupported(env: Env, url: Url, dest: string, hint: string, mode: CacheMode, j: nat)
    requires ConvertSchemeAllowed(url.scheme)
    requires DestCacheMode(env, dest, hint) == Ok(mode)
    requires j < |ConvertMethods|
    requires forall k :: 0 <= k < j ==>
      Retriable(env.run(Invocation(QemuImg, None, true, WithMethod(ConvertArgs(mode, url.text, dest), ConvertMethods[k]))))
    requires !Retriable(env.run(Invocation(QemuImg, None, true, WithMethod(ConvertArgs(mode, url.text, dest), ConvertMethods[j]))))
    ensures var r := ConvertToRawStream(env, url, dest, true, hint);
      && |r.calls| == j + 1
      && (r.result.Ok? <==> env.run(Invocation(QemuImg, None, true, WithMethod(ConvertArgs(mode, url.text, dest), ConvertMethods[j]))).err == None)
  {
    ConvertPreallocationChain(env, url, dest, hint, mode);
  }

  /** If the converter fails whatever it is given, the destination is removed and the caller
      sees a conversion error, not success. */
  lemma FailedConversionRemovesDest(env: Env, url: Url, dest: string, preallocate: bool, hint: string)
    requires ConvertSchemeAllowed(url.scheme)
    requires DestCacheMode(env, dest, hint).Ok?
    requires forall inv: Invocation :: env.run(inv).err.Some?
    ensures var r := ConvertToRawStream(env, url, dest, preallocate, hint);
      r.removed && r.result.Err? && r.result.error.ConvertFailed?
  {
    var r := ConvertToRawStream(env, url, dest, preallocate, hint);
    assert env.run(Last(r.calls)).err.Some?;
  }

  /** The plain resize argument list. */
  function ResizeArgs(image: string, size: nat): seq<string>
  {
    ["resize", "-f", "raw", image, NatToString(size)]
  }

  /** Resize: `resize -f raw <image> <size>`, through the resize chain when preallocating. */
  function Resize(env: Env, image: string, size: nat, preallocate: bool): (r: Run<()>)
    ensures 0 < |r.calls| <= (if preallocate then |ResizeMethods| else 1)
    ensures forall c :: c in r.calls ==>
      && c.tool == QemuImg && c.limits == None && !c.streamsProgress
      && |c.args| >= 5 && c.args[0] == "resize" && c.args[|c.args| - 4..] == ["-f", "raw", image, NatToString(size)]
    ensures !preallocate ==> r.calls == [Invocation(QemuImg, None, false, ResizeArgs(image, size))]
    ensures preallocate ==> forall k :: 0 <= k < |r.calls| ==>
      r.calls[k] == Invocation(QemuImg, None, false, WithMethod(ResizeArgs(image, size), ResizeMethods[k]))
    ensures !r.removed
    ensures r.result.Ok? <==> env.run(Last(r.calls)).err == None
    ensures r.result.Err? ==> r.result.error == ResizeFailed(image, env.run(Last(r.calls)).err.value)
  {
    var a := RunQemu(env, ResizeArgs(image, size), false, preallocate, ResizeMethods);
    match a.err
    case Some(e) => Run(a.calls, false, Err(ResizeFailed(image, e)))
    case None => Run(a.calls, false, Ok(()))
  }

  /** With preallocation the resize runs the resize chain: every call but the last was
      rejected as unsupported, and a single call means it was not. */
  lemma ResizePreallocationChain(env: Env, image: string, size: nat)
    ensures var r := Resize(env, image, size, true);
      && (forall k :: 0 <= k < |r.calls| - 1 ==> Retriable(env.run(r.calls[k])))
      && (|r.calls| < |ResizeMethods| ==> !Retriable(env.run(Last(r.calls))))
  {
    RunQemuMeetsChainSpec(env, ResizeArgs(image, size), false, ResizeMethods);
  }

  /** The preallocating resize runs exactly up to the first resize method that is not
      rejected as unsupported. */
  lemma ResizeStopsAtFirstSupported(env: Env, image: string, size: nat, j: nat)
    requires j < |ResizeMethods|
    requires forall k :: 0 <= k < j ==>
      Retriable(env.run(Invocation(QemuImg, None, false, WithMethod(ResizeArgs(image, size), ResizeMethods[k]))))
    requires !Retriable(env.run(Invocation(QemuImg, None, false, WithMethod(ResizeArgs(image, size), ResizeMethods[j]))))
    ensures var r := Resize(env, image, size, true);
      && |r.calls| == j + 1
      && (r.result.Ok? <==> env.run(Invocation(QemuImg, None, false, WithMethod(ResizeArgs(image, size), ResizeMethods[j]))).err == None)
  {
    ResizePreallocationChain(env, image, size);
  }

  /** The error message of a failed `qemu-img info`: output, error, and for nbd+unix sources
      the nbdkit log when it can be read. */
  function InfoFailureMessage(env: Env, url: Url, resp: Response): string
    requires resp.err.Some?
  {
    var base := resp.output + ", " + resp.err.value;
    if url.scheme == NbdUnix && env.nbdkitLog.Some? then base + " " + env.nbdkitLog.value else base
  }

  /** Info: a single `qemu-img info --output=json` run, always under the introspection limits,
      whose output is then parsed. */
  function Info(env: Env, url: Url): (r: Run<ImgInfo>)
    ensures !InfoSchemeAllowed(url.scheme) ==> r == Run([], false, Err(InvalidScheme(url.scheme)))
    ensures InfoSchemeAllowed(url.scheme) ==>
      r.calls == [Invocation(QemuImg, Some(InfoLimits), false, ["info", "--output=json", url.text])]
    ensures forall c :: c in r.calls ==> c.limits == Some(InfoLimits)
    ensures !r.removed
    ensures r.result.Ok? ==>
      && r.calls != [] && env.run(r.calls[0]).err == None
      && env.parseInfo(env.run(r.calls[0]).output) == Ok(r.result.value)
    ensures r.calls != [] && env.run(r.calls[0]).err.Some? ==>
      r.result == Err(InfoFailed(InfoFailureMessage(env, url, env.run(r.calls[0]))))
    ensures r.calls != [] && env.run(r.calls[0]).err == None ==>
      var output := env.run(r.calls[0]).output;
      r.result == (match env.parseInfo(output)
                   case Ok(info) => Ok(info)
                   case Err(cause) => Err(InvalidJson(url.text, cause)))
  {
    if !InfoSchemeAllowed(url.scheme) then Run([], false, Err(InvalidScheme(url.scheme)))
    else
      var call := Invocation(QemuImg, Some(InfoLimits), false, ["info", "--output=json", url.text]);
      var resp := env.run(call);
      if resp.err.Some? then Run([call], false, Err(InfoFailed(InfoFailureMessage(env, url, resp))))
      else match env.parseInfo(resp.output)
        case Err(cause) => Run([call], false, Err(InvalidJson(url.text, cause)))
        case Ok(info) => Run([call], false, Ok(info))
  }

  /** Validate: introspect, then apply the validation policy to what was found. */
  function Validate(env: Env, url: Url, availableSize: int): (r: Run<()>)
    ensures r.calls == Info(env, url).calls
    ensures !r.removed
    ensures Info(env, url).result.Err? ==> r.result == Err(Info(env, url).result.error)
    ensures Info(env, url).result.Ok? ==>
      var info := Info(env, url).result.value;
      && (info.format !in SupportedFormats ==> r.result == Err(InvalidFormat(info.format, url.text)))
      && (info.format in SupportedFormats && !BackingFileOk(info, env.fileExists) ==>
            r.result == Err(InvalidBackingFile(url.text, info.backingFile)))
      && (info.format in SupportedFormats && BackingFileOk(info, env.fileExists) && availableSize < info.virtualSize ==>
            r.result == Err(LargerPVCRequired(info.virtualSize, availableSize)))
    ensures (r.result.Err? && r.result.error.LargerPVCRequired?) <==>
      && Info(env, url).result.Ok?
      && var info := Info(env, url).result.value;
      && info.format in SupportedFormats && BackingFileOk(info, env.fileExists) && availableSize < info.virtualSize
    ensures r.result.Ok? <==>
      && Info(env, url).result.Ok?
      && var info := Info(env, url).result.value;
      && info.format in SupportedFormats && BackingFileOk(info, env.fileExists) && info.virtualSize <= availableSize
  {
    var i := Info(env, url);
    match i.result
    case Err(e) => Run(i.calls, false, Err(e))
    case Ok(info) =>
      match CheckImage(info, availableSize, url.text, env.fileExists)
      case Some(e) => Run(i.calls, false, Err(e))
      case None => Run(i.calls, false, Ok(()))
  }

  /** CreateBlankImage: one `qemu-img create`, then permissions 0660. A failed create removes
      the destination; a failed chmod is reported without removing it. */
  function CreateBlankImage(env: Env, dest: string, size: nat, preallocate: bool): (r: Run<()>)
    ensures |r.calls| == 1
    ensures var c := r.calls[0];
      && c.tool == QemuImg && c.limits == None && !c.streamsProgress
      && |c.args| >= 5 && c.args[..5] == ["create", "-f", "raw", dest, NatToString(size)]
      && (preallocate <==> |c.args| == 7)
      && (preallocate ==> c.args[5..] == ["-o", "preallocation=falloc"])
      && (!preallocate ==> |c.args| == 5)
    ensures r.removed <==> env.run(r.calls[0]).err.Some?
    ensures r.result.Ok? <==> env.run(r.calls[0]).err == None && env.chmod(dest, ImagePermissions) == None
    ensures r.result.Err? && !r.removed ==> r.result.error == ChmodFailed(env.chmod(dest, ImagePermissions).value)
    ensures env.run(r.calls[0]).err.Some? ==>
      r.result == Err(CreateFailed(NatToString(size), dest, env.run(r.calls[0]).err.value))
  {
    var base := ["create", "-f", "raw", dest, NatToString(size)];
    var args := if preallocate then base + ["-o", "preallocation=falloc"] else base;
    var call := Invocation(QemuImg, None, false, args);
    var resp := env.run(call);
    if resp.err.Some? then
      Run([call], true, Err(CreateFailed(NatToString(size), dest, resp.err.value)))
    else match env.chmod(dest, ImagePermissions)
      case Some(e) => Run([call], false, Err(ChmodFailed(e)))
      case None => Run([call], false, Ok(()))
  }

  /** A single qemu-img run with progress reporting whose error is returned as it is. */
  function RunWithProgress(env: Env, args: seq<string>): (r: Run<()>)
    ensures r.calls == [Invocation(QemuImg, None, true, args)]
    ensures !r.removed
    ensures r.result.Ok? <==> env.run(r.calls[0]).err == None
    ensures r.result.Err? ==> r.result.error == ToolFailed(env.run(r.calls[0]).err.value)
  {
    var call := Invocation(QemuImg, None, true, args);
    match env.run(call).err
    case Some(e) => Run([call], false, Err(ToolFailed(e)))
    case None => Run([call], false, Ok(()))
  }

  /** Rebase: point `delta` at the raw `backingFile` without copying data. */
  function Rebase(env: Env, backingFile: string, delta: string): (r: Run<()>)
    ensures r.calls == [Invocation(QemuImg, None, true, ["rebase", "-p", "-u", "-F", "raw", "-b", backingFile, delta])]
    ensures !r.removed
    ensures r.result.Ok? <==> env.run(r.calls[0]).err == None
    ensures r.result.Err? ==> r.result.error == ToolFailed(env.run(r.calls[0]).err.value)
  {
    RunWithProgress(env, ["rebase", "-p", "-u", "-F", "raw", "-b", backingFile, delta])
  }

  /** Commit: write the changes of `image` into its backing file. */
  function Commit(env: Env, image: string): (r: Run<()>)
    ensures r.calls == [Invocation(QemuImg, None, true, ["commit", "-p", image])]
    ensures !r.removed
    ensures r.result.Ok? <==> env.run(r.calls[0]).err == None
    ensures r.result.Err? ==> r.result.error == ToolFailed(env.run(r.calls[0]).err.value)
  {
    RunWithProgress(env, ["commit", "-p", image])
  }

  /** execPreallocationBlock: probe the device for direct I/O, then run one `dd`. It is the
      k-th call of the block-device checker in its operation. */
  function ExecPreallocationBlock(env: Env, dest: string, c: DdChunk, k: nat): (r: Run<()>)
    ensures env.checkBlock(dest, k).Err? ==> r == Run([], false, Err(ProbeFailed(env.checkBlock(dest, k).error)))
    ensures env.checkBlock(dest, k).Ok? ==>
      r.calls == [Invocation(Dd, None, false, DdArgs(dest, c, env.checkBlock(dest, k).value))]
    ensures !r.removed
    ensures r.result.Ok? <==> r.calls != [] && env.run(r.calls[0]).err == None
    ensures r.calls != [] && r.result.Err? ==>
      r.result.error == BlockFillFailed(dest, Bytes(c), c.seek, env.run(r.calls[0]).err.value)
  {
    match env.checkBlock(dest, k)
    case Err(e) => Run([], false, Err(ProbeFailed(e)))
    case Ok(direct) =>
      var call := Invocation(Dd, None, false, DdArgs(dest, c, direct));
      match env.run(call).err
      case Some(e) => Run([call], false, Err(BlockFillFailed(dest, Bytes(c), c.seek, e)))
      case None => Run([call], false, Ok(()))
  }

  /** Write one or two chunks in order, probing before each and stopping at the first
      failure: run k writes chunk k with the k-th probe's answer, and after a successful run
      the next chunk is attempted unless its probe fails. */
  function FillChunks(env: Env, dest: string, cs: seq<DdChunk>): (r: Run<()>)
    requires 1 <= |cs| <= 2
    ensures |r.calls| <= |cs|
    ensures forall k :: 0 <= k < |r.calls| ==>
      && env.checkBlock(dest, k).Ok?
      && r.calls[k] == Invocation(Dd, None, false, DdArgs(dest, cs[k], env.checkBlock(dest, k).value))
    ensures forall k :: 0 <= k < |r.calls| - 1 ==> env.run(r.calls[k]).err == None
    ensures r.result.Ok? <==> |r.calls| == |cs| && env.run(Last(r.calls)).err == None
    ensures r.calls != [] && env.run(Last(r.calls)).err.Some? ==>
      r.result == Err(BlockFillFailed(dest, Bytes(cs[|r.calls| - 1]), cs[|r.calls| - 1].seek, env.run(Last(r.calls)).err.value))
    ensures (r.calls == [] || env.run(Last(r.calls)).err == None) && |r.calls| < |cs| ==>
      && env.checkBlock(dest, |r.calls|).Err?
      && r.result == Err(ProbeFailed(env.checkBlock(dest, |r.calls|).error))
    ensures !r.removed
  {
    var first := ExecPreallocationBlock(env, dest, cs[0], 0);
    if first.result.Err? || |cs| == 1 then first
    else
      var second := ExecPreallocationBlock(env, dest, cs[1], 1);
      Run(first.calls + second.calls, false, second.result)
  }

  /** PreallocateBlankBlock: zero-fill the device chunk by chunk, probing before each chunk and
      stopping at the first failure. The k-th `dd` run writes the k-th chunk with the k-th
      probe's answer; after a successful run the next chunk is always attempted; success means
      every chunk was written. */
  function PreallocateBlankBlock(env: Env, dest: string, size: nat): (r: Run<()>)
    ensures |r.calls| <= |Chunks(size)|
    ensures forall k :: 0 <= k < |r.calls| ==>
      && env.checkBlock(dest, k).Ok?
      && r.calls[k] == Invocation(Dd, None, false, DdArgs(dest, Chunks(size)[k], env.checkBlock(dest, k).value))
    ensures forall k :: 0 <= k < |r.calls| - 1 ==> env.run(r.calls[k]).err == None
    ensures r.result.Ok? <==> |r.calls| == |Chunks(size)| && env.run(Last(r.calls)).err == None
    ensures r.calls != [] && env.run(Last(r.calls)).err.Some? ==>
      r.result == Err(BlockFillFailed(dest, Bytes(Chunks(size)[|r.calls| - 1]), Chunks(size)[|r.calls| - 1].seek,
                                      env.run(Last(r.calls)).err.value))
    ensures (r.calls == [] || env.run(Last(r.calls)).err == None) && |r.calls| < |Chunks(size)| ==>
      && env.checkBlock(dest, |r.calls|).Err?
      && r.result == Err(ProbeFailed(env.checkBlock(dest, |r.calls|).error))
    ensures !r.removed
  {
    FillChunks(env, dest, Chunks(size))
  }
}

=== FILE: results.dfy ===
/** Failure-carrying values shared by every module of the model. */
module Results {

  /** An optional value; `None` plays the part of Go's nil. */
  datatype Option<+T> = None | Some(value: T)

  /** Either a value or an error: Go's `(T, error)` pair, where exactly one side matters. */
  datatype Result<+T, +E> = Ok(value: T) | Err(error: E)
}

=== FILE: strings.dfy ===
/** String helpers the import engine relies on: substring search and decimal rendering. */
module Strings {

  /** `sub` occurs in `s` at position `i`. */
  predicate OccursAt(s: string, sub: string, i: nat)
  {
    i + |sub| <= |s| && s[i..i + |sub|] == sub
  }

  /** Executable substring search, in the role of Go's `strings.Contains`. */
  predicate Contains(s: string, sub: string)
    decreases |s|
  {
    if sub <= s then true
    else if |s| == 0 then false
    else Contains(s[1..], sub)
  }

  /** The scan finds `sub` exactly when it occurs somewhere in `s`. */
  lemma {:induction false} ContainsIffOccurs(s: string, sub: string)
    ensures Contains(s, sub) <==> exists i: nat :: OccursAt(s, sub, i)
    decreases |s|
  {
    if sub <= s {
      assert OccursAt(s, sub, 0);
    } else {
      assert !OccursAt(s, sub, 0);
      if |s| > 0 {
        ContainsIffOccurs(s[1..], sub);
        if Contains(s, sub) {
          var i: nat :| OccursAt(s[1..], sub, i);
          assert s[1..][i..i + |sub|] == s[i + 1..i + 1 + |sub|];
          assert OccursAt(s, sub, i + 1);
        }
        if exists i: nat :: OccursAt(s, sub, i) {
          var i: nat :| OccursAt(s, sub, i);
          assert i > 0;
          assert s[1..][i - 1..i - 1 + |sub|] == s[i..i + |sub|];
          assert OccursAt(s[1..], sub, i - 1);
        }
      } else {
        forall i: nat
          ensures !OccursAt(s, sub, i)
        {
          if i > 0 {
            assert i + |sub| > |s|;
          }
        }
      }
    }
  }

  predicate IsDigit(c: char)
  {
    '0' <= c <= '9'
  }

  predicate AllDigits(s: string)
  {
    forall i :: 0 <= i < |s| ==> IsDigit(s[i])
  }

  function DigitChar(d: nat): (c: char)
    requires d < 10
    ensures IsDigit(c)
  {
    (('0' as int) + d) as char
  }

  function DigitValue(c: char): (d: nat)
    requires IsDigit(c)
    ensures d < 10
  {
    (c as int) - ('0' as int)
  }

  /** Canonical base-10 rendering of a natural number, as Go's `strconv.FormatInt(n, 10)`
      and `fmt.Sprintf("%d", n)` produce it: digits only, no leading zero. */
  function NatToString(n: nat): (s: string)
    ensures |s| > 0 && AllDigits(s)
    ensures |s| > 1 ==> s[0] != '0'
    ensures n > 0 ==> s[0] != '0'
  {
    if n < 10 then [DigitChar(n)] else NatToString(n / 10) + [DigitChar(n % 10)]
  }

  /** Reads a string of decimal digits back as a number. */
  function ParseDigits(s: string): nat
    requires AllDigits(s)
  {
    if s == [] then 0 else 10 * ParseDigits(s[..|s| - 1]) + DigitValue(s[|s| - 1])
  }

  /** Rendering a number and reading it back gives the number again. */
  lemma {:induction false} ParseNatToString(n: nat)
    ensures ParseDigits(NatToString(n)) == n
  {
    var s := NatToString(n);
    if n >= 10 {
      ParseNatToString(n / 10);
      assert s[..|s| - 1] == NatToString(n / 10);
    }
  }
}

=== FILE: validation.dfy ===
/** Image validation policy and the URL schemes each operation admits. */
module Validation {
  import opened Results
  import opened Errors

  /** What `qemu-img info --output=json` reports about an image, already parsed.
      An empty `backingFile` means the image has none. */
  datatype ImgInfo = ImgInfo(format: string, backingFile: string, virtualSize: int, actualSize: int)

  /** The formats the importer accepts. */
  const SupportedFormats: set<string> := {"raw", "qcow2", "vmdk", "vdi", "vpc", "vhdx"}

  /** The fixed format whitelist, written as the source's switch. */
  function IsSupportedFormat(value: string): (ok: bool)
    ensures ok <==> value in SupportedFormats
  {
    match value
    case "raw" | "qcow2" | "vmdk" | "vdi" | "vpc" | "vhdx" => true
    case _ => false
  }

  /** The network block-device scheme used for nbdkit exports. */
  const NbdUnix: string := "nbd+unix"

  /** Schemes `ConvertToRawStream` accepts: none (a local path) or nbd+unix. */
  predicate ConvertSchemeAllowed(scheme: string)
  {
    |scheme| == 0 || scheme == NbdUnix
  }

  /** Schemes `Info` accepts: those of conversion, and `file`. */
  predicate InfoSchemeAllowed(scheme: string)
  {
    |scheme| == 0 || scheme == NbdUnix || scheme == "file"
  }

  /** Introspection admits every conversion source, and exactly one scheme more. */
  lemma InfoAdmitsConvertPlusFile(scheme: string)
    ensures ConvertSchemeAllowed(scheme) ==> InfoSchemeAllowed(scheme)
    ensures InfoSchemeAllowed(scheme) && !ConvertSchemeAllowed(scheme) <==> scheme == "file"
  {
  }

  /** The image may be imported only if its backing file, when it names one, exists. */
  predicate BackingFileOk(info: ImgInfo, exists_: string -> bool)
  {
    |info.backingFile| == 0 || exists_(info.backingFile)
  }

  /** checkIfURLIsValid: format first, then the backing file, then capacity. `exists_` stands
      for `os.Stat` of the backing file succeeding. */
  function CheckImage(info: ImgInfo, availableSize: int, image: string, exists_: string -> bool): (r: Option<Error>)
    ensures r == Some(InvalidFormat(info.format, image)) <==> info.format !in SupportedFormats
    ensures (r == Some(InvalidBackingFile(image, info.backingFile)))
              <==> info.format in SupportedFormats && !BackingFileOk(info, exists_)
    ensures (r.Some? && r.value.LargerPVCRequired?)
              <==> info.format in SupportedFormats && BackingFileOk(info, exists_) && availableSize < info.virtualSize
    ensures r.Some? && r.value.LargerPVCRequired? ==> r.value == LargerPVCRequired(info.virtualSize, availableSize)
    ensures (r == None)
              <==> info.format in SupportedFormats && BackingFileOk(info, exists_) && info.virtualSize <= availableSize
  {
    if !IsSupportedFormat(info.format) then
      Some(InvalidFormat(info.format, image))
    else if |info.backingFile| > 0 && !exists_(info.backingFile) then
      Some(InvalidBackingFile(image, info.backingFile))
    else if availableSize < info.virtualSize then
      Some(LargerPVCRequired(info.virtualSize, availableSize))
    else
      None
  }

  /** The capacity boundary is inclusive: a volume exactly as large as the virtual size is
      enough, and one byte less asks for a larger volume. */
  lemma CapacityBoundaryInclusive(info: ImgInfo, image: string, exists_: string -> bool)
    requires info.format in SupportedFormats && BackingFileOk(info, exists_)
    ensures CheckImage(info, info.virtualSize, image, exists_) == None
    ensures CheckImage(info, info.virtualSize - 1, image, exists_) == Some(LargerPVCRequired(info.virtualSize, info.virtualSize - 1))
  {
  }
}
